=== FILE: README.md ===
# CPD zones: ingestion and zone resolution, modelled in Dafny

The application maps an address to a Chicago police zone and to the captain and
lieutenant responsible for it. This project models its two core pieces, with
the database replaced by immutable in-memory tables:

- **`reset_data`**: the reset-and-reload command. It deletes the four tables
  (`zone_assignments`, `officers`, `regions`, `zones`, in that order) and then
  walks the GeoJSON features. For each feature it:
  - creates a zone named after `CPD_Zone`;
  - finds or creates the captain (`CAPT`) and the lieutenant (`LT`) by exact
    name;
  - assigns both officers to the zone;
  - adds one region per polygon. A MultiPolygon gives one region per part, a
    Polygon gives one, and any other geometry type gives none.
- **`find_in_zone`**: the resolver. It returns the zone id of the first region
  whose polygon covers the point (longitude, latitude), or nothing.

Modules, one per concern:

- `Common` (`common.dfy`): `Option`, `Result`, and the first-match search
  `First`. The officer lookup, the property check and the resolver all use it.
- `Tables` (`tables.dfy`): the entity rows `Zone` (app/app.py:50-58),
  `Region<P>` (60-69), `Officer` (71-86) and `ZoneAssignment` (88-99), one
  datatype per mapped class, with the same columns.
  - Each row has a surrogate `id`, and cross-references are foreign-key fields.
  - A region's polygon is the opaque type parameter `P`.
  - Each table has its own serial counter, which a DELETE does not rewind.
  - `Valid` says three things: keys are unique, officer names are unique, and
    every foreign key names a present row.
  - The table also holds the deletes, the inserts and the name-keyed officer
    lookup.
- `Features` (`features.dfy`): the parsed feature. It has a string property map
  and a geometry: `Polygon`, `MultiPolygon` (RFC 7946, sections 3.1.6 and
  3.1.7), another type, or `null`.
- `Ingest` (`ingest.dfy`): the per-feature step. It is split at the source's
  commit points. Around it are the left fold `Load` and the two versions of the
  command, `ResetDataAsWritten` and `ResetData`.
- `Roster` (`roster.dfy`): officer deduplication on id-free person lists.
- `IngestFacts` (`ingest_facts.dfy`): what a completed reload leaves in the
  store, stated from the feature list alone, and the properties that follow.
- `Resolver` (`resolver.dfy`): `FindInZone`. It takes the geographic covers
  test as a parameter `covers(polygon, lon, lat)`, and it combines with the
  ingestion facts.

Behaviour of the command worth noting:

- The command returns no statistics. Skipped geometries are not counted.
- A missing property raises a `KeyError` that ends the run. Earlier features
  stay committed, so the run is not rejected as a whole.
- The deletes are committed only together with the first feature (see Findings).
- Officer titles are fixed at first insertion: `Captain` for a `CAPT`,
  `Lieutenant` for an `LT`.

## Model

| member | source | states |
|---|---|---|
| Common.First | app/app.py:101-109 | the index returned is the first element satisfying the test; there is none exactly when no element satisfies it |
| Tables.Clear | app/app.py:131-134 | the four deletes leave every table empty and the store valid, whatever it held; the serial counters are not rewound |
| Tables.RegionZoneResolves | app/app.py:60-64 | in a valid store a region's `zone_id` names exactly one zone |
| Tables.AssignmentKeysResolve | app/app.py:88-92 | in a valid store an assignment's `zone_id` names exactly one zone and its `officer_id` exactly one officer |
| Tables.DeleteAssignments | app/app.py:131 | deleting assignments empties that table, leaves the other tables and the serial counters as they were, and keeps the store valid |
| Tables.DeleteOfficers | app/app.py:132 | deleting officers empties that table and leaves everything else as it was; the store stays valid provided no assignment is left, which is why assignments go first |
| Tables.DeleteRegions | app/app.py:133 | deleting regions empties that table, leaves everything else as it was, and keeps the store valid |
| Tables.DeleteZones | app/app.py:134 | deleting zones empties that table and leaves everything else as it was; the store stays valid provided regions and assignments are already gone, which is why zones are deleted last |
| Tables.InsertZone | app/app.py:142-144 | a zone name longer than the 200-character column is refused; otherwise exactly one zone is appended, under an id not in use; the zone counter moves past that id, no other table or counter changes, and the store stays valid |
| Tables.InsertOfficer | app/app.py:150-156 | an officer with a column longer than 200 characters is refused; otherwise exactly one officer row with the candidate's four columns is appended, under an id not in use; the officer counter moves past that id, and no other table or counter changes |
| Tables.Enrol | app/app.py:150-158 | after resolving a person by exact name, that name is on the roster and every earlier entry is kept in place |
| Tables.ResolveOfficer | app/app.py:146-158 | an officer whose exact name exists is reused and the store is untouched; otherwise the candidate is inserted, which fails exactly when a column is too wide; the returned id names an officer with that name and names stay unique |
| Tables.InsertAssignment | app/app.py:162-166 | exactly one assignment linking the given zone and officer is appended; the assignment counter moves past its id, and no other table or counter changes; validity is kept when both the zone and the officer exist |
| Tables.InsertRegion | app/app.py:173-180 | exactly one region with the given polygon, owned by the given zone, is appended under the next region id; the region counter moves past it, and no other table or counter changes; validity is kept when the zone exists |
| Tables.InsertRegions | app/app.py:170-181 | one region per polygon, in the given order, all owned by the given zone, after the regions already there; no other table, and no other table's counter, changes; validity is kept when the zone exists |
| Features.ReadProps | app/app.py:140-142 | succeeds exactly when all seven properties are present; otherwise the error is the first missing key in the order they are read |
| Ingest.OpenZone | app/app.py:140-160 | up to the first commit: fails exactly when the zone name or an officer that has to be inserted is too wide; otherwise one zone is appended, the captain then the lieutenant are enrolled by name, with the lieutenant's lookup seeing the captain just added, and the store is valid |
| Ingest.Assign | app/app.py:162-168 | exactly two assignments are appended, the zone to the captain and the zone to the lieutenant; validity holds when both officers and the zone were committed before |
| Ingest.AddGeometry | app/app.py:170-184 | a null geometry is the only failure; a MultiPolygon adds one region per part, in part order; a Polygon adds exactly one region with its polygon; any other type leaves the store exactly as it was; the new regions are owned by the feature's zone and come after the regions already there; zones, officers and assignments are unchanged |
| Ingest.IngestFeature | app/app.py:139-184 | one feature only appends rows; validity holds at its end; a failure before the first commit leaves the store as it was; a null geometry keeps the feature's zone, its enrolled captain and lieutenant and both assignments, committed at lines 160 and 168, and adds no region |
| Ingest.Load | app/app.py:139-184 | the fold only appends rows, keeps the store valid at every commit point and reports an index inside the feature list; `IngestFacts.AbortKeepsPrefix` and `IngestFacts.FirstFailureStops` state that this is the first failing feature |
| Ingest.ResetDataAsWritten | app/app.py:125-186 | when no commit is reached the store is exactly what it was before; otherwise it is valid |
| Ingest.ResetData | app/app.py:125-186 | a completed run leaves a valid store; a run that fails before its first commit leaves the store as it was; any later failure leaves a valid store |
| IngestFacts.Candidates | app/app.py:140-141 | the candidate officers come two per feature, in feature order: the captain with its email, phone and title `Captain`, then the lieutenant with title `Lieutenant` |
| IngestFacts.FeatureEffect | app/app.py:139-184 | a completed feature adds one zone named after `CPD_Zone` with a fresh id; it enrols its captain then its lieutenant; it adds two assignments, zone to captain and zone to lieutenant; it adds one region per polygon part, in part order, owned by that zone |
| IngestFacts.FeatureStatusByPersons | app/app.py:146-158 | whether a feature completes, and its error, depend on the store only through its officers |
| IngestFacts.LoadShape | app/app.py:139-184 | a completed load appends, feature by feature, exactly the zones, officers (enrolled by name), assignments and regions the features describe |
| IngestFacts.LoadStatusByPersons | app/app.py:139-184 | where a load stops depends on the store only through its officers |
| IngestFacts.AbortKeepsPrefix | app/app.py:139-184 | a failed load stops at a feature k whose predecessors all completed and which itself failed with the reported error; the store keeps exactly the completed earlier features; of the failing feature it keeps nothing, except that a null geometry keeps the feature's zone, enrolled officers and both assignments, committed before the failure, and no region |
| IngestFacts.FirstFailureStops | app/app.py:139-184 | when the features before k complete and feature k fails, the load is aborted at k with that feature's error |
| IngestFacts.MissingKeyFailsFeature | app/app.py:140-142 | a feature missing a property fails with the first missing key in read order and leaves the store untouched; a feature with all seven properties never fails that way |
| IngestFacts.MissingKeyEndsLoad | app/app.py:139-142 | once the features before k complete, a feature k lacking a property ends the run at k with that key's error, the key being absent from its properties, and the store keeps exactly what the earlier features committed |
| IngestFacts.DoneMeansShapedAt | app/app.py:139-184 | in a completed load every feature had all seven properties, a non-null geometry and a zone name of at most 200 characters |
| IngestFacts.ReloadZones | app/app.py:131-144 | after a completed reload there is one zone per feature, in order, named after its `CPD_Zone`; no zone from before survives |
| IngestFacts.ReloadRoster | app/app.py:131-158 | after a completed reload the officers are the roster of the features' candidates alone |
| IngestFacts.ReloadAssignments | app/app.py:162-166 | after a completed reload there are 2 x the feature count assignments; those of feature i link its zone to an officer named its `CAPT`, then to one named its `LT` |
| IngestFacts.ReloadRegions | app/app.py:170-184 | after a completed reload the regions are exactly the polygon parts of the features, in order, each owned by its own feature's zone |
| IngestFacts.ReloadOfficers | app/app.py:140-158 | after a completed reload officer names are unique; their count equals the number of distinct `CAPT` and `LT` values; every row carries the email, phone and title of its name's first occurrence |
| IngestFacts.ReloadIndependentOfStore | app/app.py:131-184 | the reload's status does not depend on the store's previous contents; when it completes, the row counts, zone names, region polygons and officer columns do not either |
| IngestFacts.ReloadTwice | app/app.py:131-134 | reloading the same features a second time completes again with the same row counts and contents |
| IngestFacts.WellFormedReloadCompletes | app/app.py:182-184 | a reload of features that have every property, values within the column width and a non-null geometry completes; an unsupported geometry type does not stop it |
| IngestFacts.EmptyReloadKeepsRows | app/app.py:131-160 | as written, an empty feature list leaves an existing zone row in place, while the corrected command empties the table |
| IngestFacts.AsWrittenAgreesOnFeatures | app/app.py:131-160 | the written and corrected commands agree on every non-empty feature list |
| Roster.EnrolAllDistinct | app/app.py:146-158 | enrolling candidates one by one keeps names unique |
| Roster.EnrolAllFirst | app/app.py:150-158 | each person enrolled is the first candidate with its name, so later values for that name are ignored |
| Roster.DistinctCount | app/app.py:146-158 | with unique names, the roster has as many rows as distinct names |
| Resolver.FindInZone | app/app.py:101-109 | returns nothing exactly when no region covers the point (longitude, latitude); otherwise it returns the zone id of the first covering region in store order |
| Resolver.RegionlessZoneNeverFound | app/app.py:101-109 | after a completed reload, the zone of a feature whose geometry gave no polygon is never returned |
| Resolver.SoleCoveringPolygonResolves | app/app.py:101-109 | after a completed reload, a point covered by exactly one ingested polygon resolves to the zone of that polygon's feature |

The `Reload*` rows and `ReloadIndependentOfStore`, `ReloadTwice`, `WellFormedReloadCompletes` and the two `Resolver` reload rows are stated of the corrected command `Ingest.ResetData`. They carry over to the command as written for every non-empty feature list, by `IngestFacts.AsWrittenAgreesOnFeatures`.

## Left out

- Geocoding over HTTP (`decode_address_to_coordinates`, app/app.py:111-122): network I/O and parsing of an external service's JSON.
- The Flask route `index` (app/app.py:188-199): request handling and templates. This includes the assignment lookup by zone at line 196 and the use of a possibly missing result at line 195.
- Asset bundling, Flask, SQLAlchemy, Migrate and Manager wiring, and server configuration (app/app.py:22-48, 201-210): framework glue.
- Reading `CPDZones.geojson` and the progress messages (app/app.py:126-129, 136-138, 186): I/O. The model takes the parsed feature list.
- Real geometry: PostGIS `ST_Covers` on geography with SRID 4326, and the `asShape`/`from_shape` conversions. Polygons are opaque and covers is a caller-supplied predicate.
  - A polygon the geometry library rejects, or one the database refuses at insert (a ring that is not closed, coordinates outside the geography range), is not modelled. The database refusal would come at the commit at line 177 or 181, after the commits at lines 160 and 168. Like a null geometry it would end the run and keep the feature's zone, officers and assignments. The model instead always accepts a polygon.
  - Nor is the text round trip of the coordinates through `POINT(lon lat)`.
  - Coordinates are `real`, not 64-bit floats.
- Transactions are modelled only as snapshots at the commit points at lines 160, 168, 177 and 181. Autoflush timing is modelled only through the order of the errors: an over-wide zone name is reported before an over-wide officer column.
- Surrogate ids are `db.Integer` serials (lines 52, 62, 73 and 90), 32-bit in PostgreSQL. An insert fails once a sequence passes 2147483647. The model's ids are unbounded, so running out of ids is not modelled. Because reloads never rewind the counters, this bounds how many reloads the database can take.
- Serial values consumed by an insert that is later rolled back are not modelled. The model's counters advance only on committed rows.
- Property values that are JSON `null` are not modelled; the property map holds strings only. A null zone name, or a null column of an officer that has to be inserted, would violate a NOT NULL column; a null email or phone of a reused officer would be ignored, since that candidate is never inserted.
- `first()` without an ORDER BY returns the database's retrieval order. The model fixes it as insertion order.
- Concurrent runs of the command are not modelled. They are not supported.
- Tables.InsertZone: a name over 200 characters is always refused. PostgreSQL's `VARCHAR(200)`, behind `Unicode(length=200)`, instead stores such a value truncated, without error, when every excess character is a space. The model aborts the run with `ValueTooLong` there.
- Tables.InsertOfficer: the same width rule applies to the four officer columns, with the same difference for values whose excess is only spaces.
- Tables.ResolveOfficer: because of that difference the model misses one consequence. A `CAPT` or `LT` of more than 200 characters whose excess is only spaces is stored truncated, and the next lookup by the untruncated name (lines 146-147) finds no row. A second feature with that name then inserts a duplicate. So the source can end with two officers of the same name, while the model keeps names unique.
- Ingest.OpenZone: its failure condition uses the same width rule, so it shares the difference above.
- IngestFacts.WellFormedReloadCompletes: this is a sufficient condition for completion, not an exact one. A reused officer's over-wide email or phone does not stop the run. IngestFacts.LoadStatusByPersons states that the status depends on the store only through its officers. IngestFacts.DoneMeansShapedAt gives the converse's store-independent half. Completion against any store also assumes that the serial counters stay below 2^31; running out of ids is not modelled.
- IngestFacts.ReloadIndependentOfStore: the rows are equal only up to surrogate ids. The serial counters are never rewound, so a second reload hands out new ids. The status is independent of the store only while the counters stay below 2^31; running out of ids is not modelled.
- IngestFacts.ReloadTwice: the second reload completes only while the serial counters stay below 2^31. Every reload uses up ids, and running out of them is not modelled.

## Findings

| source | as written | input that shows it | evidently intended | confidence | as-written member | corrected member |
|---|---|---|---|---|---|---|
| app/app.py:131-160 | The four deletes run in the session's open transaction. Only the first `db.session.commit()` inside the loop (line 160) commits them. | A store holding rows, reloaded with an empty feature list. No commit is reached, the session's transaction is discarded at the end of the command, and every old row remains. | Once the run completes, the tables hold only the new rows, whatever the feature list; for example with a commit after the loop. | medium, not executed. It assumes the default of no commit on session teardown; the configuration is not part of this model. | Ingest.ResetDataAsWritten, IngestFacts.EmptyReloadKeepsRows | Ingest.ResetData, IngestFacts.ReloadZones |

=== FILE: common.dfy ===
/** Option and Result values, and the first-match search that the officer
    lookup, the property check and the zone resolver are all built on. */
module Common {

  datatype Option<+T> = None | Some(value: T)

  datatype Result<+T, +E> = Ok(value: T) | Err(error: E)

  /** Index of the first element of `xs` that satisfies `p`, scanning in
      sequence order; `None` when no element does. */
  function First<T>(xs: seq<T>, p: T -> bool): (r: Option<nat>)
    ensures r.None? <==> forall i :: 0 <= i < |xs| ==> !p(xs[i])
    ensures r.Some? ==> r.value < |xs| && p(xs[r.value])
    ensures r.Some? ==> forall j :: 0 <= j < r.value ==> !p(xs[j])
    decreases |xs|
  {
    if |xs| == 0 then None
    else if p(xs[0]) then Some(0)
    else match First(xs[1..], p)
      case None => None
      case Some(i) => Some(i + 1)
  }
}

=== FILE: features.dfy ===
/** The parsed GeoJSON input: one feature per zone, with string properties and
    a geometry whose polygons stay opaque (type parameter `P`). */
module Features {
  import opened Common
  import opened Tables

  /** A feature's geometry. `Polygon` and `MultiPolygon` are the two area types
      of GeoJSON (sections 3.1.6 and 3.1.7 of RFC 7946). `Unsupported` is every
      other type, so its `kind` is never "Polygon" or "MultiPolygon". `Null` is
      a feature whose geometry member is `null`. */
  datatype Geometry<P> =
    | Polygon(polygon: P)
    | MultiPolygon(parts: seq<P>)
    | Unsupported(kind: string)
    | Null

  datatype Feature<P> = Feature(properties: map<string, string>, geometry: Geometry<P>)

  /** The properties read for a feature, in the order the loader reads them. */
  const RequiredKeys: seq<string> := ["CAPT", "CAPT_EMAIL", "CAPT_PHONE", "LT", "LT_EMAIL", "LT_PHONE", "CPD_Zone"]

  const CaptainTitle: string := "Captain"
  const LieutenantTitle: string := "Lieutenant"

  /** A property's value; the empty string for a key the feature lacks. */
  function Get<P>(f: Feature<P>, key: string): string {
    if key in f.properties then f.properties[key] else ""
  }

  function Captain<P>(f: Feature<P>): Person {
    Person(Get(f, "CAPT"), Get(f, "CAPT_EMAIL"), Get(f, "CAPT_PHONE"), CaptainTitle)
  }

  function Lieutenant<P>(f: Feature<P>): Person {
    Person(Get(f, "LT"), Get(f, "LT_EMAIL"), Get(f, "LT_PHONE"), LieutenantTitle)
  }

  function ZoneName<P>(f: Feature<P>): string {
    Get(f, "CPD_Zone")
  }

  /** The two candidate officers and the zone name of a feature. */
  datatype Props = Props(captain: Person, lieutenant: Person, zone: string)

  /** Reads the seven properties; the first one missing, in read order, is the
      error (the lookup that raises). */
  function ReadProps<P>(f: Feature<P>): (r: Result<Props, string>)
    ensures r.Ok? <==> forall i :: 0 <= i < |RequiredKeys| ==> RequiredKeys[i] in f.properties
    ensures r.Ok? ==> r.value == Props(Captain(f), Lieutenant(f), ZoneName(f))
    ensures r.Err? ==>
      exists i :: (0 <= i < |RequiredKeys| && RequiredKeys[i] == r.error && r.error !in f.properties
                   && forall j :: 0 <= j < i ==> RequiredKeys[j] in f.properties)
  {
    match First(RequiredKeys, (k: string) => k !in f.properties)
    case Some(i) => Err(RequiredKeys[i])
    case None =>
      Ok(Props(Captain(f), Lieutenant(f), ZoneName(f)))
  }

  /** The polygons a geometry contributes as Regions: each part of a
      MultiPolygon, the single polygon of a Polygon, nothing otherwise. */
  function Parts<P>(g: Geometry<P>): seq<P> {
    match g
    case MultiPolygon(parts) => parts
    case Polygon(p) => [p]
    case _ => []
  }
}

=== FILE: ingest.dfy ===
/** The reset-and-reload command: delete all four tables, then fold a
    per-feature step over the parsed feature list. Each feature passes two
    commit points (after the zone and its officers, after the assignments)
    and, for an area geometry, a third (after its regions). A failure inside
    a feature rolls that feature back to its last commit point and ends the
    run. */
module Ingest {
  import opened Common
  import opened Tables
  import opened Features

  datatype IngestError =
    | MalformedFeature(key: string)   // a required property is missing
    | ValueTooLong(table: string)     // a text column refused an insert
    | NullGeometry                    // the feature's geometry is null

  datatype Status = Done | Aborted(feature: nat, error: IngestError)

  datatype Outcome<P> = Outcome(store: Store<P>, status: Status)

  /** State at the first commit point of a feature: the new zone and the
      (possibly reused) captain and lieutenant. */
  datatype Opened<P> = Opened(store: Store<P>, zone: Id, captain: Id, lieutenant: Id)

  datatype Step<P> = Committed(store: Store<P>) | Failed(store: Store<P>, error: IngestError)

  /** Resolving `p` against the persons `ps` succeeds: it is reused, or it fits
      the columns it would be inserted into. */
  predicate Admits(ps: seq<Person>, p: Person) {
    Listed(ps, p.name) || Fits(p)
  }

  /** Up to the first commit of a feature: add the zone, then resolve the
      captain, then the lieutenant, each lookup seeing every officer added so far. */
  function OpenZone<P>(s: Store<P>, p: Props): (r: Result<Opened<P>, IngestError>)
    ensures r.Ok? <==>
      && |p.zone| <= TextWidth
      && Admits(Persons(s.officers), p.captain)
      && Admits(Enrol(Persons(s.officers), p.captain), p.lieutenant)
    ensures r.Err? ==> r.error == if |p.zone| > TextWidth then ValueTooLong("zones") else ValueTooLong("officers")
    ensures r.Ok? ==>
      && r.value.store.zones == s.zones + [Zone(r.value.zone, p.zone)]
      && r.value.store.regions == s.regions
      && r.value.store.assignments == s.assignments
      && Persons(r.value.store.officers) == Enrol(Enrol(Persons(s.officers), p.captain), p.lieutenant)
      && Extends(s, r.value.store)
      && OfficerNamed(r.value.store, r.value.captain, p.captain.name)
      && OfficerNamed(r.value.store, r.value.lieutenant, p.lieutenant.name)
    ensures r.Ok? && Valid(s) ==>
      && Valid(r.value.store)
      && !HasZone(s, r.value.zone)
      && HasZone(r.value.store, r.value.zone)
  {
    match InsertZone(s, p.zone)
    case None => Err(ValueTooLong("zones"))
    case Some((s1, zone)) =>
      match ResolveOfficer(s1, p.captain)
      case None => Err(ValueTooLong("officers"))
      case Some((s2, captain)) =>
        match ResolveOfficer(s2, p.lieutenant)
        case None => Err(ValueTooLong("officers"))
        case Some((s3, lieutenant)) =>
          ExtendsKeepsKeys(s2, s3);
          Ok(Opened(s3, zone, captain, lieutenant))
  }

  /** Between the first and second commit: one assignment for the captain and
      one for the lieutenant, both to the new zone. */
  function Assign<P>(o: Opened<P>): (s: Store<P>)
    ensures |s.assignments| == |o.store.assignments| + 2
    ensures o.store.assignments <= s.assignments
    ensures s.assignments[|o.store.assignments|].zoneId == o.zone
    ensures s.assignments[|o.store.assignments|].officerId == o.captain
    ensures s.assignments[|o.store.assignments| + 1].zoneId == o.zone
    ensures s.assignments[|o.store.assignments| + 1].officerId == o.lieutenant
    ensures s.zones == o.store.zones && s.regions == o.store.regions && s.officers == o.store.officers
    ensures (Valid(o.store) && HasZone(o.store, o.zone)
             && HasOfficer(o.store, o.captain) && HasOfficer(o.store, o.lieutenant)) ==> Valid(s)
  {
    var (s1, _) := InsertAssignment(o.store, o.zone, o.captain);
    var (s2, _) := InsertAssignment(s1, o.zone, o.lieutenant);
    s2
  }

  /** After the second commit: the regions of the geometry, owned by `zone`.
      Other geometry types add nothing; a null geometry raises. */
  function AddGeometry<P>(s: Store<P>, g: Geometry<P>, zone: Id): (r: Result<Store<P>, IngestError>)
    ensures r.Err? <==> g.Null?
    ensures r.Ok? ==>
      && s.regions <= r.value.regions
      && |r.value.regions| == |s.regions| + |Parts(g)|
      && RegionsAt(r.value.regions, |s.regions|, Parts(g), zone)
      && r.value.zones == s.zones && r.value.officers == s.officers && r.value.assignments == s.assignments
    ensures g.MultiPolygon? ==>
      && r.Ok? && |r.value.regions| == |s.regions| + |g.parts|
      && RegionsAt(r.value.regions, |s.regions|, g.parts, zone)
    ensures g.Polygon? ==>
      && r.Ok? && |r.value.regions| == |s.regions| + 1
      && r.value.regions[|s.regions|].geog == g.polygon && r.value.regions[|s.regions|].zoneId == zone
    ensures g.Unsupported? ==> r == Ok(s)
    ensures r.Ok? && Valid(s) && HasZone(s, zone) ==> Valid(r.value)
  {
    if g.Null? then Err(NullGeometry) else Ok(InsertRegions(s, Parts(g), zone))
  }

  /** What feature `f` has appended to `s`, giving `u`, by its second commit:
      one zone named after its `CPD_Zone`, its captain then its lieutenant
      enrolled by name, and two assignments linking the new zone to an officer
      of each name. */
  ghost predicate FeatureOpened<P>(s: Store<P>, f: Feature<P>, u: Store<P>) {
    && Extends(s, u)
    && |u.zones| == |s.zones| + 1
    && u.zones[|s.zones|].name == ZoneName(f)
    && Persons(u.officers) == Enrol(Enrol(Persons(s.officers), Captain(f)), Lieutenant(f))
    && |u.assignments| == |s.assignments| + 2
    && u.assignments[|s.assignments|].zoneId == u.zones[|s.zones|].id
    && u.assignments[|s.assignments| + 1].zoneId == u.zones[|s.zones|].id
    && OfficerNamed(u, u.assignments[|s.assignments|].officerId, Captain(f).name)
    && OfficerNamed(u, u.assignments[|s.assignments| + 1].officerId, Lieutenant(f).name)
  }

  /** One feature of the loop. A failure before the first commit leaves `s`
      as it was; a null geometry keeps the zone, officers and assignments
      committed before it and adds no region. */
  function IngestFeature<P>(s: Store<P>, f: Feature<P>): (r: Step<P>)
    ensures Extends(s, r.store)
    ensures Valid(s) ==> Valid(r.store)
    ensures r.Failed? && !r.error.NullGeometry? ==> r.store == s
    ensures r.Failed? && r.error.NullGeometry? ==>
      && f.geometry.Null?
      && FeatureOpened(s, f, r.store)
      && r.store.regions == s.regions
  {
    match ReadProps(f)
    case Err(key) => Failed(s, MalformedFeature(key))
    case Ok(p) =>
      match OpenZone(s, p)
      case Err(e) => Failed(s, e)
      case Ok(o) =>
        var s2 := Assign(o);
        OpenedThenAssigned(s, f, p, o);
        match AddGeometry(s2, f.geometry, o.zone)
        case Err(e) => Failed(s2, e)
        case Ok(s3) =>
          ExtendsTrans(s, s2, s3);
          Committed(s3)
  }

  /** A feature's first two stages: by its second commit it has appended
      exactly its zone, its officers and their two assignments, validly. */
  lemma {:induction false} OpenedThenAssigned<P>(s: Store<P>, f: Feature<P>, p: Props, o: Opened<P>)
    requires ReadProps(f) == Ok(p) && OpenZone(s, p) == Ok(o)
    ensures FeatureOpened(s, f, Assign(o))
    ensures Assign(o).regions == s.regions
    ensures Valid(s) ==> Valid(Assign(o)) && HasZone(Assign(o), o.zone)
  {
    assert Valid(s) ==> HasOfficer(o.store, o.captain) && HasOfficer(o.store, o.lieutenant);
  }

  /** The loop over the features, as a left fold; the first failing feature
      ends the run with its index. */
  function Load<P>(s: Store<P>, fs: seq<Feature<P>>): (r: Outcome<P>)
    ensures Extends(s, r.store)
    ensures Valid(s) ==> Valid(r.store)
    ensures r.status.Aborted? ==> r.status.feature < |fs|
    decreases |fs|
  {
    if |fs| == 0 then Outcome(s, Done)
    else
      var o := Load(s, fs[..|fs| - 1]);
      if o.status.Aborted? then o
      else
        var step := IngestFeature(o.store, fs[|fs| - 1]);
        ExtendsTrans(s, o.store, step.store);
        match step
        case Committed(t) => Outcome(t, Done)
        case Failed(t, e) => Outcome(t, Aborted(|fs| - 1, e))
  }

  /** Whether the run reached its first commit, which is also what commits the
      deletes: the first feature got past its zone and officers. */
  predicate CommitReached(n: nat, st: Status) {
    n > 0 && !(st.Aborted? && st.feature == 0 && !st.error.NullGeometry?)
  }

  /** The command as written: the deletes share a transaction with the first
      feature, so when no commit is reached they are rolled back and the old
      rows stay. */
  function ResetDataAsWritten<P>(s: Store<P>, fs: seq<Feature<P>>): (r: Outcome<P>)
    ensures CommitReached(|fs|, r.status) ==> Valid(r.store)
    ensures !CommitReached(|fs|, r.status) ==> r.store == s
  {
    var o := Load(Clear(s), fs);
    if CommitReached(|fs|, o.status) then o else Outcome(s, o.status)
  }

  /** The command with the deletes committed once the loop completes, so that
      an empty feature list also empties the tables. A run that fails before
      its first commit is still rolled back. */
  function ResetData<P>(s: Store<P>, fs: seq<Feature<P>>): (r: Outcome<P>)
    ensures r.status == Done ==> Valid(r.store)
    ensures r.status.Aborted? ==> r.status.feature < |fs|
    ensures r.status.Aborted? && !CommitReached(|fs|, r.status) ==> r.store == s
    ensures r.status.Aborted? && CommitReached(|fs|, r.status) ==> Valid(r.store)
  {
    var o := Load(Clear(s), fs);
    if o.status == Done || CommitReached(|fs|, o.status) then o else Outcome(s, o.status)
  }
}

=== FILE: ingest_facts.dfy ===
/** What a reload leaves in the store, stated in terms of the feature list
    alone, and the properties of the command that follow from it. */
module IngestFacts {
  import opened Common
  import opened Tables
  import opened Features
  import opened Roster
  import opened Ingest

  // ---------------------------------------------------------------------------
  // Reference definitions over the feature list

  /** The candidate officers of the features in the order the loop meets
      them: each feature's captain, then its lieutenant. */
  function Candidates<P>(fs: seq<Feature<P>>): (cs: seq<Person>)
    ensures |cs| == 2 * |fs|
    ensures forall i :: 0 <= i < |fs| ==> cs[2 * i] == Captain(fs[i]) && cs[2 * i + 1] == Lieutenant(fs[i])
    decreases |fs|
  {
    if |fs| == 0 then []
    else Candidates(fs[..|fs| - 1]) + [Captain(fs[|fs| - 1]), Lieutenant(fs[|fs| - 1])]
  }

  /** Every name the features give as `CAPT` or `LT`. */
  function OfficerNames<P>(fs: seq<Feature<P>>): set<string> {
    (set i | 0 <= i < |fs| :: Get(fs[i], "CAPT")) + (set i | 0 <= i < |fs| :: Get(fs[i], "LT"))
  }

  function Tag<P>(i: nat, ps: seq<P>): (l: seq<(nat, P)>)
    ensures |l| == |ps|
    ensures forall k :: 0 <= k < |ps| ==> l[k] == (i, ps[k])
  {
    seq(|ps|, k requires 0 <= k < |ps| => (i, ps[k]))
  }

  /** The regions a run creates, in creation order, each as the index of the
      feature it comes from and its polygon. */
  function Layout<P>(fs: seq<Feature<P>>): (l: seq<(nat, P)>)
    ensures forall k :: 0 <= k < |l| ==> l[k].0 < |fs| && l[k].1 in Parts(fs[l[k].0].geometry)
    decreases |fs|
  {
    if |fs| == 0 then []
    else
      var pre := Layout(fs[..|fs| - 1]);
      var l := pre + Tag(|fs| - 1, Parts(fs[|fs| - 1].geometry));
      assert forall k :: 0 <= k < |pre| ==> l[k] == pre[k] && fs[pre[k].0] == fs[..|fs| - 1][pre[k].0];
      l
  }

  // ---------------------------------------------------------------------------
  // The shape of `t` after loading `fs` into `s`, table by table

  ghost predicate ZonesLoaded<P>(s: Store<P>, fs: seq<Feature<P>>, t: Store<P>) {
    && s.zones <= t.zones
    && |t.zones| == |s.zones| + |fs|
    && forall i :: 0 <= i < |fs| ==> t.zones[|s.zones| + i].name == ZoneName(fs[i])
  }

  ghost predicate OfficersLoaded<P>(s: Store<P>, fs: seq<Feature<P>>, t: Store<P>) {
    && s.officers <= t.officers
    && Persons(t.officers) == EnrolAll(Persons(s.officers), Candidates(fs))
  }

  /** The `i`-th feature loaded after `a` assignments and `z` zones has its
      zone assigned to an officer named its captain, then to one named its
      lieutenant. */
  ghost predicate AssignedAt<P>(t: Store<P>, a: nat, z: nat, i: nat, f: Feature<P>) {
    && a + 2 * i + 1 < |t.assignments| && z + i < |t.zones|
    && t.assignments[a + 2 * i].zoneId == t.zones[z + i].id
    && t.assignments[a + 2 * i + 1].zoneId == t.zones[z + i].id
    && OfficerNamed(t, t.assignments[a + 2 * i].officerId, Captain(f).name)
    && OfficerNamed(t, t.assignments[a + 2 * i + 1].officerId, Lieutenant(f).name)
  }

  ghost predicate AssignmentsLoaded<P>(s: Store<P>, fs: seq<Feature<P>>, t: Store<P>) {
    && s.assignments <= t.assignments
    && |t.zones| == |s.zones| + |fs|
    && |t.assignments| == |s.assignments| + 2 * |fs|
    && forall i :: 0 <= i < |fs| ==> AssignedAt(t, |s.assignments|, |s.zones|, i, fs[i])
  }

  ghost predicate RegionsLoaded<P>(s: Store<P>, fs: seq<Feature<P>>, t: Store<P>) {
    && s.regions <= t.regions
    && |t.zones| == |s.zones| + |fs|
    && |t.regions| == |s.regions| + |Layout(fs)|
    && forall k :: 0 <= k < |Layout(fs)| ==>
         && t.regions[|s.regions| + k].geog == Layout(fs)[k].1
         && t.regions[|s.regions| + k].zoneId == t.zones[|s.zones| + Layout(fs)[k].0].id
  }

  ghost predicate Loaded<P>(s: Store<P>, fs: seq<Feature<P>>, t: Store<P>) {
    ZonesLoaded(s, fs, t) && OfficersLoaded(s, fs, t) && AssignmentsLoaded(s, fs, t) && RegionsLoaded(s, fs, t)
  }

  // ---------------------------------------------------------------------------
  // One feature

  /** The store at the first commit point of a feature, against the store
      before it. */
  ghost predicate OpenedAs<P>(s: Store<P>, p: Props, o: Opened<P>) {
    && o.store.zones == s.zones + [Zone(o.zone, p.zone)]
    && o.store.regions == s.regions
    && o.store.assignments == s.assignments
    && s.officers <= o.store.officers
    && Persons(o.store.officers) == Enrol(Enrol(Persons(s.officers), p.captain), p.lieutenant)
    && OfficerNamed(o.store, o.captain, p.captain.name)
    && OfficerNamed(o.store, o.lieutenant, p.lieutenant.name)
  }

  /** The store at the last commit point of a feature, against the first. */
  ghost predicate FinishedAs<P>(o: Opened<P>, g: Geometry<P>, u: Store<P>) {
    var a := |o.store.assignments|;
    var n := |o.store.regions|;
    && u.zones == o.store.zones
    && u.officers == o.store.officers
    && o.store.assignments <= u.assignments
    && |u.assignments| == a + 2
    && u.assignments[a].zoneId == o.zone && u.assignments[a].officerId == o.captain
    && u.assignments[a + 1].zoneId == o.zone && u.assignments[a + 1].officerId == o.lieutenant
    && o.store.regions <= u.regions
    && |u.regions| == n + |Parts(g)|
    && RegionsAt(u.regions, n, Parts(g), o.zone)
  }

  lemma {:induction false} OpenedShape<P>(s: Store<P>, p: Props, o: Opened<P>)
    requires OpenZone(s, p) == Ok(o)
    ensures OpenedAs(s, p, o)
  {
  }

  lemma {:induction false} FinishedShape<P>(o: Opened<P>, g: Geometry<P>, u: Store<P>)
    requires AddGeometry(Assign(o), g, o.zone) == Ok(u)
    ensures FinishedAs(o, g, u)
  {
    assert u == InsertRegions(Assign(o), Parts(g), o.zone);
  }

  /** The three stages of a feature, composed. */
  lemma {:induction false} StagesEffect<P>(s: Store<P>, p: Props, o: Opened<P>, g: Geometry<P>, u: Store<P>)
    requires OpenedAs(s, p, o) && FinishedAs(o, g, u)
    ensures Extends(s, u)
    ensures |u.zones| == |s.zones| + 1 && u.zones[|s.zones|] == Zone(o.zone, p.zone)
    ensures Persons(u.officers) == Enrol(Enrol(Persons(s.officers), p.captain), p.lieutenant)
    ensures |u.assignments| == |s.assignments| + 2
    ensures u.assignments[|s.assignments|].zoneId == o.zone
    ensures u.assignments[|s.assignments| + 1].zoneId == o.zone
    ensures OfficerNamed(u, u.assignments[|s.assignments|].officerId, p.captain.name)
    ensures OfficerNamed(u, u.assignments[|s.assignments| + 1].officerId, p.lieutenant.name)
    ensures |u.regions| == |s.regions| + |Parts(g)|
    ensures RegionsAt(u.regions, |s.regions|, Parts(g), o.zone)
  {
    assert |o.store.regions| == |s.regions|;
  }

  /** What a completed feature `f` appends to `s`, giving `u`: one zone named
      after its `CPD_Zone`, its captain then its lieutenant enrolled by name,
      both assigned to the new zone, and one region per polygon part, in part
      order, owned by that zone. */
  ghost predicate FeatureLoaded<P>(s: Store<P>, f: Feature<P>, u: Store<P>) {
    && FeatureOpened(s, f, u)
    && |u.regions| == |s.regions| + |Parts(f.geometry)|
    && RegionsAt(u.regions, |s.regions|, Parts(f.geometry), u.zones[|s.zones|].id)
  }

  /** A feature that completes had every property and a non-null geometry,
      and appended exactly its own rows under a fresh zone id. */
  lemma {:induction false} FeatureEffect<P>(s: Store<P>, f: Feature<P>)
    requires IngestFeature(s, f).Committed?
    ensures ReadProps(f).Ok? && !f.geometry.Null?
    ensures FeatureLoaded(s, f, IngestFeature(s, f).store)
    ensures Valid(s) ==> !HasZone(s, IngestFeature(s, f).store.zones[|s.zones|].id)
  {
    var r := ReadProps(f);
    assert r.Ok?;
    var p := r.value;
    var oz := OpenZone(s, p);
    assert oz.Ok?;
    var o := oz.value;
    var ag := AddGeometry(Assign(o), f.geometry, o.zone);
    assert ag.Ok?;
    var u := ag.value;
    assert IngestFeature(s, f) == Committed(u);
    OpenedShape(s, p, o);
    FinishedShape(o, f.geometry, u);
    StagesEffect(s, p, o, f.geometry, u);
  }

  /** Whether a feature completes depends on the store only through the
      officers' names and columns. */
  lemma {:induction false} FeatureStatusByPersons<P>(s1: Store<P>, s2: Store<P>, f: Feature<P>)
    requires Persons(s1.officers) == Persons(s2.officers)
    ensures IngestFeature(s1, f).Committed? == IngestFeature(s2, f).Committed?
    ensures IngestFeature(s1, f).Failed? ==> IngestFeature(s1, f).error == IngestFeature(s2, f).error
  {
    if ReadProps(f).Ok? {
      OpenZoneByPersons(s1, s2, ReadProps(f).value);
    }
  }

  lemma {:induction false} OpenZoneByPersons<P>(s1: Store<P>, s2: Store<P>, p: Props)
    requires Persons(s1.officers) == Persons(s2.officers)
    ensures OpenZone(s1, p).Ok? == OpenZone(s2, p).Ok?
    ensures OpenZone(s1, p).Err? ==> OpenZone(s1, p).error == OpenZone(s2, p).error
  {
  }

  // ---------------------------------------------------------------------------
  // The fold

  lemma {:induction false} ZonesCompose<P>(s: Store<P>, fs: seq<Feature<P>>, t0: Store<P>, t: Store<P>)
    requires |fs| > 0
    requires ZonesLoaded(s, fs[..|fs| - 1], t0)
    requires t0.zones <= t.zones && |t.zones| == |t0.zones| + 1
    requires t.zones[|t0.zones|].name == ZoneName(fs[|fs| - 1])
    ensures ZonesLoaded(s, fs, t)
  {
    var pre := fs[..|fs| - 1];
    forall i | 0 <= i < |fs| ensures t.zones[|s.zones| + i].name == ZoneName(fs[i]) {
      if i < |pre| {
        assert fs[i] == pre[i];
        assert t.zones[|s.zones| + i] == t0.zones[|s.zones| + i];
      }
    }
  }

  lemma {:induction false} EnrolAllPair(ps: seq<Person>, cs: seq<Person>, a: Person, b: Person)
    ensures EnrolAll(ps, cs + [a, b]) == Enrol(Enrol(EnrolAll(ps, cs), a), b)
  {
    var x := cs + [a, b];
    assert x[..|x| - 1] == cs + [a];
    assert (cs + [a])[..|cs|] == cs;
  }

  lemma {:induction false} OfficersCompose<P>(s: Store<P>, fs: seq<Feature<P>>, t0: Store<P>, t: Store<P>)
    requires |fs| > 0
    requires OfficersLoaded(s, fs[..|fs| - 1], t0)
    requires t0.officers <= t.officers
    requires Persons(t.officers) == Enrol(Enrol(Persons(t0.officers), Captain(fs[|fs| - 1])), Lieutenant(fs[|fs| - 1]))
    ensures OfficersLoaded(s, fs, t)
  {
    EnrolAllPair(Persons(s.officers), Candidates(fs[..|fs| - 1]), Captain(fs[|fs| - 1]), Lieutenant(fs[|fs| - 1]));
  }

  lemma {:induction false} NamedKept<P>(s: Store<P>, t: Store<P>, id: Id, name: string)
    requires s.officers <= t.officers && OfficerNamed(s, id, name)
    ensures OfficerNamed(t, id, name)
  {
    var i :| 0 <= i < |s.officers| && s.officers[i].id == id && s.officers[i].name == name;
    assert t.officers[i] == s.officers[i];
  }

  lemma {:induction false} AssignmentsCompose<P>(s: Store<P>, fs: seq<Feature<P>>, t0: Store<P>, t: Store<P>)
    requires |fs| > 0
    requires AssignmentsLoaded(s, fs[..|fs| - 1], t0)
    requires t0.zones <= t.zones && t0.officers <= t.officers && t0.assignments <= t.assignments
    requires |t.zones| == |t0.zones| + 1 && |t.assignments| == |t0.assignments| + 2
    requires t.assignments[|t0.assignments|].zoneId == t.zones[|t0.zones|].id
    requires t.assignments[|t0.assignments| + 1].zoneId == t.zones[|t0.zones|].id
    requires OfficerNamed(t, t.assignments[|t0.assignments|].officerId, Captain(fs[|fs| - 1]).name)
    requires OfficerNamed(t, t.assignments[|t0.assignments| + 1].officerId, Lieutenant(fs[|fs| - 1]).name)
    ensures AssignmentsLoaded(s, fs, t)
  {
    var pre := fs[..|fs| - 1];
    var a := |s.assignments|;
    var z := |s.zones|;
    assert |t0.assignments| == a + 2 * |pre| && |t0.zones| == z + |pre|;
    forall i | 0 <= i < |fs| ensures AssignedAt(t, a, z, i, fs[i]) {
      if i < |pre| {
        assert fs[i] == pre[i];
        AssignedKept(t0, t, a, z, i, pre[i]);
      } else {
        assert a + 2 * i == |t0.assignments| && z + i == |t0.zones|;
      }
    }
  }

  lemma {:induction false} AssignedKept<P>(t0: Store<P>, t: Store<P>, a: nat, z: nat, i: nat, f: Feature<P>)
    requires t0.zones <= t.zones && t0.officers <= t.officers && t0.assignments <= t.assignments
    requires AssignedAt(t0, a, z, i, f)
    ensures AssignedAt(t, a, z, i, f)
  {
    assert t.assignments[a + 2 * i] == t0.assignments[a + 2 * i];
    assert t.assignments[a + 2 * i + 1] == t0.assignments[a + 2 * i + 1];
    assert t.zones[z + i] == t0.zones[z + i];
    NamedKept(t0, t, t0.assignments[a + 2 * i].officerId, Captain(f).name);
    NamedKept(t0, t, t0.assignments[a + 2 * i + 1].officerId, Lieutenant(f).name);
  }

  lemma {:induction false} RegionsCompose<P>(s: Store<P>, fs: seq<Feature<P>>, parts: seq<P>, t0: Store<P>, t: Store<P>)
    requires |fs| > 0 && parts == Parts(fs[|fs| - 1].geometry)
    requires RegionsLoaded(s, fs[..|fs| - 1], t0)
    requires t0.zones <= t.zones && |t.zones| == |t0.zones| + 1
    requires t0.regions <= t.regions && |t.regions| == |t0.regions| + |parts|
    requires RegionsAt(t.regions, |t0.regions|, parts, t.zones[|t0.zones|].id)
    ensures RegionsLoaded(s, fs, t)
  {
    var pre := fs[..|fs| - 1];
    var lp := Layout(pre);
    var l := Layout(fs);
    assert l == lp + Tag(|fs| - 1, parts);
    forall k | 0 <= k < |l|
      ensures && t.regions[|s.regions| + k].geog == l[k].1
              && t.regions[|s.regions| + k].zoneId == t.zones[|s.zones| + l[k].0].id
    {
      if k < |lp| {
        assert l[k] == lp[k];
        assert t.regions[|s.regions| + k] == t0.regions[|s.regions| + k];
        assert t.zones[|s.zones| + lp[k].0] == t0.zones[|s.zones| + lp[k].0];
      } else {
        var j := k - |lp|;
        assert l[k] == (|fs| - 1, parts[j]);
        assert |s.regions| + k == |t0.regions| + j;
        assert |s.zones| + (|fs| - 1) == |t0.zones|;
        assert t.regions[|t0.regions| + j].geog == parts[j] && t.regions[|t0.regions| + j].zoneId == t.zones[|t0.zones|].id;
      }
    }
  }

  /** A completed load is a completed load of all but the last feature,
      followed by the last feature completing. */
  lemma {:induction false} LoadLast<P>(s: Store<P>, fs: seq<Feature<P>>)
    requires |fs| > 0 && Load(s, fs).status == Done
    ensures Load(s, fs[..|fs| - 1]).status == Done
    ensures IngestFeature(Load(s, fs[..|fs| - 1]).store, fs[|fs| - 1]) == Committed(Load(s, fs).store)
  {
  }

  /** A completed load leaves exactly the rows the features describe after
      the rows that were there. */
  lemma {:induction false} LoadShape<P>(s: Store<P>, fs: seq<Feature<P>>)
    requires Load(s, fs).status == Done
    ensures Loaded(s, fs, Load(s, fs).store)
    decreases |fs|
  {
    var t := Load(s, fs).store;
    if |fs| == 0 {
      assert Persons(t.officers) == EnrolAll(Persons(s.officers), Candidates(fs));
    } else {
      var pre := fs[..|fs| - 1];
      var f := fs[|fs| - 1];
      var t0 := Load(s, pre).store;
      LoadLast(s, fs);
      LoadShape(s, pre);
      FeatureEffect(t0, f);
      ZonesCompose(s, fs, t0, t);
      OfficersCompose(s, fs, t0, t);
      AssignmentsCompose(s, fs, t0, t);
      RegionsCompose(s, fs, Parts(f.geometry), t0, t);
    }
  }

  /** Whether a load completes, and where it stops, depends on the store only
      through its officers. */
  lemma {:induction false} LoadStatusByPersons<P>(s1: Store<P>, s2: Store<P>, fs: seq<Feature<P>>)
    requires Persons(s1.officers) == Persons(s2.officers)
    ensures Load(s1, fs).status == Load(s2, fs).status
    decreases |fs|
  {
    if |fs| > 0 {
      var pre := fs[..|fs| - 1];
      LoadStatusByPersons(s1, s2, pre);
      if Load(s1, pre).status == Done {
        LoadShape(s1, pre);
        LoadShape(s2, pre);
        FeatureStatusByPersons(Load(s1, pre).store, Load(s2, pre).store, fs[|fs| - 1]);
      }
    }
  }

  /** A failed load stops at feature `k`: every feature before it completed,
      and `k` itself failed with the reported error. Of the failing feature the
      store keeps nothing, unless its geometry is null: then it keeps the zone,
      officers and assignments committed before the geometry was read, and no
      region. */
  lemma {:induction false} AbortKeepsPrefix<P>(s: Store<P>, fs: seq<Feature<P>>)
    requires Load(s, fs).status.Aborted?
    ensures var k := Load(s, fs).status.feature;
      && k < |fs|
      && Load(s, fs[..k]).status == Done
      && IngestFeature(Load(s, fs[..k]).store, fs[k]) == Failed(Load(s, fs).store, Load(s, fs).status.error)
      && (!Load(s, fs).status.error.NullGeometry? ==> Load(s, fs).store == Load(s, fs[..k]).store)
      && (Load(s, fs).status.error.NullGeometry? ==>
            && fs[k].geometry.Null?
            && FeatureOpened(Load(s, fs[..k]).store, fs[k], Load(s, fs).store)
            && Load(s, fs).store.regions == Load(s, fs[..k]).store.regions)
    decreases |fs|
  {
    var pre := fs[..|fs| - 1];
    var k := Load(s, fs).status.feature;
    if Load(s, pre).status.Aborted? {
      LoadKeepsAbort(s, fs);
      AbortKeepsPrefix(s, pre);
      assert fs[..k] == pre[..k];
      assert fs[k] == pre[k];
    } else {
      LoadLastAborted(s, fs);
      assert fs[..k] == pre;
    }
  }

  /** The first feature that fails stops the run: when the features before
      `k` complete and feature `k` fails, the load is aborted at `k` with that
      feature's error. */
  lemma {:induction false} FirstFailureStops<P>(s: Store<P>, fs: seq<Feature<P>>, k: nat)
    requires k < |fs| && Load(s, fs[..k]).status == Done
    requires IngestFeature(Load(s, fs[..k]).store, fs[k]).Failed?
    ensures Load(s, fs).status == Aborted(k, IngestFeature(Load(s, fs[..k]).store, fs[k]).error)
    decreases |fs|
  {
    var pre := fs[..|fs| - 1];
    if k == |fs| - 1 {
      assert pre == fs[..k];
      LoadLastFails(s, fs);
    } else {
      PrefixOfPrefix(fs, k);
      FirstFailureStops(s, pre, k);
      LoadKeepsAbort(s, fs);
    }
  }

  lemma {:induction false} PrefixOfPrefix<T>(xs: seq<T>, k: nat)
    requires k < |xs| - 1
    ensures xs[..|xs| - 1][..k] == xs[..k] && xs[..|xs| - 1][k] == xs[k]
  {
  }

  lemma {:induction false} LoadLastFails<P>(s: Store<P>, fs: seq<Feature<P>>)
    requires |fs| > 0 && Load(s, fs[..|fs| - 1]).status == Done
    requires IngestFeature(Load(s, fs[..|fs| - 1]).store, fs[|fs| - 1]).Failed?
    ensures Load(s, fs).status == Aborted(|fs| - 1, IngestFeature(Load(s, fs[..|fs| - 1]).store, fs[|fs| - 1]).error)
  {
  }

  /** A feature missing a property fails on reading it, with the first missing
      key in read order and the store untouched; a feature with every
      property never fails that way. */
  lemma {:induction false} MissingKeyFailsFeature<P>(s: Store<P>, f: Feature<P>)
    ensures ReadProps(f).Err? ==> IngestFeature(s, f) == Failed(s, MalformedFeature(ReadProps(f).error))
    ensures ReadProps(f).Ok? ==> !(IngestFeature(s, f).Failed? && IngestFeature(s, f).error.MalformedFeature?)
  {
  }

  /** A missing property ends the run: once the features before `k` complete,
      a feature `k` lacking a property aborts the load at `k` with that key's
      error, keeping exactly what the earlier features committed. */
  lemma {:induction false} MissingKeyEndsLoad<P>(s: Store<P>, fs: seq<Feature<P>>, k: nat)
    requires k < |fs| && Load(s, fs[..k]).status == Done && ReadProps(fs[k]).Err?
    ensures Load(s, fs).status == Aborted(k, MalformedFeature(ReadProps(fs[k]).error))
    ensures Load(s, fs).store == Load(s, fs[..k]).store
    ensures ReadProps(fs[k]).error !in fs[k].properties
  {
    MissingKeyFailsFeature(Load(s, fs[..k]).store, fs[k]);
    FirstFailureStops(s, fs, k);
    AbortKeepsPrefix(s, fs);
  }

  /** A completed load had, for every feature, all seven properties, a
      non-null geometry and a zone name that fits its column. */
  lemma {:induction false} DoneMeansShapedAt<P>(s: Store<P>, fs: seq<Feature<P>>, i: nat)
    requires Load(s, fs).status == Done && i < |fs|
    ensures ReadProps(fs[i]).Ok? && !fs[i].geometry.Null? && |ZoneName(fs[i])| <= TextWidth
    decreases |fs|
  {
    var pre := fs[..|fs| - 1];
    LoadLast(s, fs);
    if i == |fs| - 1 {
      CommittedShaped(Load(s, pre).store, fs[i]);
    } else {
      assert fs[i] == pre[i];
      DoneMeansShapedAt(s, pre, i);
    }
  }

  lemma {:induction false} CommittedShaped<P>(s: Store<P>, f: Feature<P>)
    requires IngestFeature(s, f).Committed?
    ensures ReadProps(f).Ok? && !f.geometry.Null? && |ZoneName(f)| <= TextWidth
  {
    var p := ReadProps(f).value;
    assert OpenZone(s, p).Ok?;
  }

  /** Once a prefix of the features has failed, the rest are not read. */
  lemma {:induction false} LoadKeepsAbort<P>(s: Store<P>, fs: seq<Feature<P>>)
    requires |fs| > 0 && Load(s, fs[..|fs| - 1]).status.Aborted?
    ensures Load(s, fs) == Load(s, fs[..|fs| - 1])
  {
  }

  /** A load that fails on its last feature is a completed load of the others
      followed by that feature's failed step. */
  lemma {:induction false} LoadLastAborted<P>(s: Store<P>, fs: seq<Feature<P>>)
    requires |fs| > 0 && Load(s, fs[..|fs| - 1]).status == Done && Load(s, fs).status.Aborted?
    ensures Load(s, fs).status.feature == |fs| - 1
    ensures IngestFeature(Load(s, fs[..|fs| - 1]).store, fs[|fs| - 1])
      == Failed(Load(s, fs).store, Load(s, fs).status.error)
  {
  }

  // ---------------------------------------------------------------------------
  // The reset-and-reload command

  /** A completed reload is the load of the features into the cleared store. */
  lemma {:induction false} ResetIsLoad<P>(s: Store<P>, fs: seq<Feature<P>>)
    requires ResetData(s, fs).status == Done
    ensures ResetData(s, fs) == Load(Clear(s), fs)
  {
  }

  lemma {:induction false} ZonesFromEmpty<P>(c: Store<P>, fs: seq<Feature<P>>, t: Store<P>)
    requires |c.zones| == 0 && ZonesLoaded(c, fs, t)
    ensures |t.zones| == |fs| && forall i :: 0 <= i < |fs| ==> t.zones[i].name == ZoneName(fs[i])
  {
    forall i | 0 <= i < |fs| ensures t.zones[i].name == ZoneName(fs[i]) {
      assert t.zones[|c.zones| + i].name == ZoneName(fs[i]);
    }
  }

  lemma {:induction false} AssignmentsFromEmpty<P>(c: Store<P>, fs: seq<Feature<P>>, t: Store<P>)
    requires |c.zones| == 0 && |c.assignments| == 0 && AssignmentsLoaded(c, fs, t)
    ensures |t.zones| == |fs| && |t.assignments| == 2 * |fs|
    ensures forall i :: 0 <= i < |fs| ==>
      && t.assignments[2 * i].zoneId == t.zones[i].id
      && t.assignments[2 * i + 1].zoneId == t.zones[i].id
      && OfficerNamed(t, t.assignments[2 * i].officerId, Captain(fs[i]).name)
      && OfficerNamed(t, t.assignments[2 * i + 1].officerId, Lieutenant(fs[i]).name)
  {
    forall i | 0 <= i < |fs|
      ensures && t.assignments[2 * i].zoneId == t.zones[i].id
              && t.assignments[2 * i + 1].zoneId == t.zones[i].id
              && OfficerNamed(t, t.assignments[2 * i].officerId, Captain(fs[i]).name)
              && OfficerNamed(t, t.assignments[2 * i + 1].officerId, Lieutenant(fs[i]).name)
    {
      assert AssignedAt(t, |c.assignments|, |c.zones|, i, fs[i]);
    }
  }

  lemma {:induction false} RegionsFromEmpty<P>(c: Store<P>, fs: seq<Feature<P>>, t: Store<P>)
    requires |c.zones| == 0 && |c.regions| == 0 && RegionsLoaded(c, fs, t)
    ensures |t.zones| == |fs| && |t.regions| == |Layout(fs)|
    ensures forall k :: 0 <= k < |Layout(fs)| ==>
      t.regions[k].geog == Layout(fs)[k].1 && t.regions[k].zoneId == t.zones[Layout(fs)[k].0].id
  {
    var l := Layout(fs);
    forall k | 0 <= k < |l| ensures t.regions[k].geog == l[k].1 && t.regions[k].zoneId == t.zones[l[k].0].id {
      assert t.regions[|c.regions| + k].zoneId == t.zones[|c.zones| + l[k].0].id;
    }
  }

  /** Nothing present before a completed reload survives it in the zone
      table: there is one zone per feature, in feature order, named after its
      `CPD_Zone`. */
  lemma {:induction false} ReloadZones<P>(s: Store<P>, fs: seq<Feature<P>>)
    requires ResetData(s, fs).status == Done
    ensures var t := ResetData(s, fs).store;
      && |t.zones| == |fs|
      && (forall i :: 0 <= i < |fs| ==> t.zones[i].name == ZoneName(fs[i]))
  {
    ResetIsLoad(s, fs);
    LoadShape(Clear(s), fs);
    ZonesFromEmpty(Clear(s), fs, ResetData(s, fs).store);
  }

  /** The officer table after a completed reload is the roster of the
      features' candidates alone. */
  lemma {:induction false} ReloadRoster<P>(s: Store<P>, fs: seq<Feature<P>>)
    requires ResetData(s, fs).status == Done
    ensures Persons(ResetData(s, fs).store.officers) == EnrolAll([], Candidates(fs))
  {
    ResetIsLoad(s, fs);
    LoadShape(Clear(s), fs);
    assert Persons(Clear(s).officers) == [];
  }

  /** After a completed reload there are exactly two assignments per
      feature: the feature's zone to its captain, then to its lieutenant. */
  lemma {:induction false} ReloadAssignments<P>(s: Store<P>, fs: seq<Feature<P>>)
    requires ResetData(s, fs).status == Done
    ensures var t := ResetData(s, fs).store;
      && |t.zones| == |fs|
      && |t.assignments| == 2 * |fs|
      && (forall i :: 0 <= i < |fs| ==>
            && t.assignments[2 * i].zoneId == t.zones[i].id
            && t.assignments[2 * i + 1].zoneId == t.zones[i].id
            && OfficerNamed(t, t.assignments[2 * i].officerId, Captain(fs[i]).name)
            && OfficerNamed(t, t.assignments[2 * i + 1].officerId, Lieutenant(fs[i]).name))
  {
    ResetIsLoad(s, fs);
    LoadShape(Clear(s), fs);
    AssignmentsFromEmpty(Clear(s), fs, ResetData(s, fs).store);
  }

  /** After a completed reload the regions are exactly the polygon parts of
      the features, in order, each owned by its feature's zone. */
  lemma {:induction false} ReloadRegions<P>(s: Store<P>, fs: seq<Feature<P>>)
    requires ResetData(s, fs).status == Done
    ensures var t := ResetData(s, fs).store;
      && |t.zones| == |fs|
      && |t.regions| == |Layout(fs)|
      && (forall k :: 0 <= k < |Layout(fs)| ==>
            t.regions[k].geog == Layout(fs)[k].1 && t.regions[k].zoneId == t.zones[Layout(fs)[k].0].id)
  {
    ResetIsLoad(s, fs);
    LoadShape(Clear(s), fs);
    RegionsFromEmpty(Clear(s), fs, ResetData(s, fs).store);
  }

  /** The officer table after a completed reload: one row per distinct `CAPT`
      or `LT` name, each carrying the columns of that name's first
      occurrence (captain before lieutenant within a feature). */
  lemma {:induction false} ReloadOfficers<P>(s: Store<P>, fs: seq<Feature<P>>)
    requires ResetData(s, fs).status == Done
    ensures var t := ResetData(s, fs).store;
      && DistinctNames(Persons(t.officers))
      && NameSet(Persons(t.officers)) == OfficerNames(fs)
      && |t.officers| == |OfficerNames(fs)|
      && forall j :: 0 <= j < |t.officers| ==> FirstOfName(Candidates(fs), PersonOf(t.officers[j]))
  {
    var t := ResetData(s, fs).store;
    var cs := Candidates(fs);
    ReloadRoster(s, fs);
    FreshRoster(cs);
    CandidateNames(fs);
    var ps := Persons(t.officers);
    forall j | 0 <= j < |t.officers| ensures FirstOfName(cs, PersonOf(t.officers[j])) {
      assert ps[j] == PersonOf(t.officers[j]);
    }
  }

  /** The roster built from nothing out of candidates `cs`: unique names, the
      candidates' names, one entry per name, each entry its name's first
      candidate. */
  lemma {:induction false} FreshRoster(cs: seq<Person>)
    ensures var ps := EnrolAll([], cs);
      && DistinctNames(ps)
      && NameSet(ps) == NameSet(cs)
      && |ps| == |NameSet(cs)|
      && forall j :: 0 <= j < |ps| ==> FirstOfName(cs, ps[j])
  {
    var ps := EnrolAll([], cs);
    EnrolAllDistinct([], cs);
    EnrolAllNames([], cs);
    EnrolAllFirst([], cs);
    DistinctCount(ps);
    assert NameSet([]) == {};
  }

  lemma Halve(k: nat) returns (i: nat)
    ensures k == 2 * i || k == 2 * i + 1
  {
    i := k / 2;
  }

  lemma {:induction false} CandidateNames<P>(fs: seq<Feature<P>>)
    ensures NameSet(Candidates(fs)) == OfficerNames(fs)
  {
    var cs := Candidates(fs);
    forall n | n in NameSet(cs) ensures n in OfficerNames(fs) {
      var k :| 0 <= k < |cs| && cs[k].name == n;
      var i := Halve(k);
      if k == 2 * i {
        assert n == Get(fs[i], "CAPT");
      } else {
        assert n == Get(fs[i], "LT");
      }
    }
    forall n | n in OfficerNames(fs) ensures n in NameSet(cs) {
      if n in (set i | 0 <= i < |fs| :: Get(fs[i], "CAPT")) {
        var i :| 0 <= i < |fs| && Get(fs[i], "CAPT") == n;
        assert cs[2 * i].name == n;
      } else {
        var i :| 0 <= i < |fs| && Get(fs[i], "LT") == n;
        assert cs[2 * i + 1].name == n;
      }
    }
  }

  /** Two stores with the same rows apart from surrogate ids. */
  ghost predicate SameContents<P>(t1: Store<P>, t2: Store<P>) {
    && |t1.zones| == |t2.zones|
    && |t1.regions| == |t2.regions|
    && |t1.officers| == |t2.officers|
    && |t1.assignments| == |t2.assignments|
    && (forall i :: 0 <= i < |t1.zones| ==> t1.zones[i].name == t2.zones[i].name)
    && (forall k :: 0 <= k < |t1.regions| ==> t1.regions[k].geog == t2.regions[k].geog)
    && Persons(t1.officers) == Persons(t2.officers)
  }

  /** The outcome of a reload does not depend on what the store held before:
      the same status and, when it completes, the same rows up to ids. */
  lemma {:induction false} ReloadIndependentOfStore<P>(s1: Store<P>, s2: Store<P>, fs: seq<Feature<P>>)
    ensures ResetData(s1, fs).status == ResetData(s2, fs).status
    ensures ResetData(s1, fs).status == Done ==> SameContents(ResetData(s1, fs).store, ResetData(s2, fs).store)
  {
    LoadStatusByPersons(Clear(s1), Clear(s2), fs);
    if ResetData(s1, fs).status == Done {
      ReloadZones(s1, fs);
      ReloadZones(s2, fs);
      ReloadRoster(s1, fs);
      ReloadRoster(s2, fs);
      ReloadAssignments(s1, fs);
      ReloadAssignments(s2, fs);
      ReloadRegions(s1, fs);
      ReloadRegions(s2, fs);
    }
  }

  /** Running the reload twice on the same features gives the same row counts
      and contents as running it once. */
  lemma {:induction false} ReloadTwice<P>(s: Store<P>, fs: seq<Feature<P>>)
    requires ResetData(s, fs).status == Done
    ensures var once := ResetData(s, fs).store;
      && ResetData(once, fs).status == Done
      && SameContents(once, ResetData(once, fs).store)
  {
    ReloadIndependentOfStore(s, ResetData(s, fs).store, fs);
  }

  /** A feature with every property present, every value within the column
      width and a non-null geometry. */
  ghost predicate WellFormed<P>(f: Feature<P>) {
    && (forall i :: 0 <= i < |RequiredKeys| ==> RequiredKeys[i] in f.properties)
    && |ZoneName(f)| <= TextWidth
    && Fits(Captain(f))
    && Fits(Lieutenant(f))
    && !f.geometry.Null?
  }

  /** A well-formed feature completes against any store. */
  lemma {:induction false} WellFormedCommits<P>(s: Store<P>, f: Feature<P>)
    requires WellFormed(f)
    ensures IngestFeature(s, f).Committed?
  {
    var p := ReadProps(f).value;
    assert p == Props(Captain(f), Lieutenant(f), ZoneName(f));
    assert OpenZone(s, p).Ok?;
  }

  lemma {:induction false} LoadCompletes<P>(s: Store<P>, fs: seq<Feature<P>>)
    requires forall i :: 0 <= i < |fs| ==> WellFormed(fs[i])
    ensures Load(s, fs).status == Done
    decreases |fs|
  {
    if |fs| > 0 {
      var pre := fs[..|fs| - 1];
      LoadCompletes(s, pre);
      WellFormedCommits(Load(s, pre).store, fs[|fs| - 1]);
    }
  }

  /** A reload of well-formed features always completes; in particular any
      geometry type other than Polygon and MultiPolygon does not stop it. */
  lemma {:induction false} WellFormedReloadCompletes<P>(s: Store<P>, fs: seq<Feature<P>>)
    requires forall i :: 0 <= i < |fs| ==> WellFormed(fs[i])
    ensures ResetData(s, fs).status == Done
  {
    LoadCompletes(Clear(s), fs);
  }

  // ---------------------------------------------------------------------------
  // The deletes and the first commit

  /** With an empty feature list the command as written reaches no commit, so
      its deletes are rolled back and the old rows survive; the command with
      the deletes committed leaves the tables empty. */
  lemma {:induction false} EmptyReloadKeepsRows()
    ensures var s: Store<int> := Store([Zone(1, "5A")], [], [], [], Serials(2, 1, 1, 1));
      && ResetDataAsWritten(s, []) == Outcome(s, Done)
      && |ResetDataAsWritten(s, []).store.zones| == 1
      && ResetData(s, []).status == Done
      && |ResetData(s, []).store.zones| == 0
  {
  }

  /** On any non-empty feature list the two versions of the command agree. */
  lemma {:induction false} AsWrittenAgreesOnFeatures<P>(s: Store<P>, fs: seq<Feature<P>>)
    requires |fs| > 0
    ensures ResetDataAsWritten(s, fs) == ResetData(s, fs)
  {
  }
}

=== FILE: resolver.dfy ===
/** The zone resolver: the zone of the first region, in the store's retrieval
    order, whose polygon covers the point. The geographic covers test is
    supplied by the caller and left uninterpreted. */
module Resolver {
  import opened Common
  import opened Tables
  import opened Features
  import opened Ingest
  import opened IngestFacts

  /** `covers(polygon, lon, lat)` decides whether the polygon covers the point
      with longitude `lon` and latitude `lat`. */
  type Covers<!P> = (P, real, real) -> bool

  /** Looks up the zone for the point at latitude `lat` and longitude `lon`;
      the point is built longitude first. */
  function FindInZone<P>(s: Store<P>, covers: Covers<P>, lat: real, lon: real): (zone: Option<Id>)
    ensures zone.None? <==> forall i :: 0 <= i < |s.regions| ==> !covers(s.regions[i].geog, lon, lat)
    ensures zone.Some? ==>
      exists i :: (0 <= i < |s.regions| && covers(s.regions[i].geog, lon, lat) && s.regions[i].zoneId == zone.value
                   && forall j :: 0 <= j < i ==> !covers(s.regions[j].geog, lon, lat))
  {
    match First(s.regions, (r: Region<P>) => covers(r.geog, lon, lat))
    case None => None
    case Some(i) => Some(s.regions[i].zoneId)
  }

  /** A zone that owns no region is never returned, wherever the point is. */
  lemma {:induction false} UnownedZoneNeverFound<P>(s: Store<P>, covers: Covers<P>, lat: real, lon: real, z: Id)
    requires forall k :: 0 <= k < |s.regions| ==> s.regions[k].zoneId != z
    ensures FindInZone(s, covers, lat, lon) != Some(z)
  {
  }

  /** After a completed reload, the zone of a feature whose geometry
      contributed no polygon owns no region. */
  lemma {:induction false} ZoneWithoutRegions<P>(s: Store<P>, fs: seq<Feature<P>>, i: nat)
    requires ResetData(s, fs).status == Done
    requires i < |fs| && |Parts(fs[i].geometry)| == 0
    ensures var t := ResetData(s, fs).store;
      && |t.zones| == |fs|
      && forall k :: 0 <= k < |t.regions| ==> t.regions[k].zoneId != t.zones[i].id
  {
    var t := ResetData(s, fs).store;
    ReloadRegions(s, fs);
    var l := Layout(fs);
    assert ZoneKeys(t.zones, t.next.zone);
    forall k | 0 <= k < |t.regions| ensures t.regions[k].zoneId != t.zones[i].id {
      var j := l[k].0;
      assert t.regions[k].zoneId == t.zones[j].id;
      assert l[k].1 in Parts(fs[j].geometry);
      assert j != i;
      if j < i {
        assert t.zones[j].id < t.zones[i].id;
      } else {
        assert t.zones[i].id < t.zones[j].id;
      }
    }
  }

  /** After a completed reload, a feature whose geometry contributed no
      polygon (any type other than Polygon or MultiPolygon, or an empty
      MultiPolygon) never has its zone returned. */
  lemma {:induction false} RegionlessZoneNeverFound<P>(s: Store<P>, fs: seq<Feature<P>>, covers: Covers<P>, lat: real, lon: real, i: nat)
    requires ResetData(s, fs).status == Done
    requires i < |fs| && |Parts(fs[i].geometry)| == 0
    ensures var t := ResetData(s, fs).store;
      |t.zones| == |fs| && FindInZone(t, covers, lat, lon) != Some(t.zones[i].id)
  {
    var t := ResetData(s, fs).store;
    ZoneWithoutRegions(s, fs, i);
    UnownedZoneNeverFound(t, covers, lat, lon, t.zones[i].id);
  }

  /** After a completed reload, a point that exactly one ingested polygon
      covers resolves to the zone of that polygon's feature. */
  lemma {:induction false} SoleCoveringPolygonResolves<P>(s: Store<P>, fs: seq<Feature<P>>, covers: Covers<P>, lat: real, lon: real, k: nat)
    requires ResetData(s, fs).status == Done
    requires k < |Layout(fs)| && covers(Layout(fs)[k].1, lon, lat)
    requires forall m :: 0 <= m < |Layout(fs)| && m != k ==> !covers(Layout(fs)[m].1, lon, lat)
    ensures var t := ResetData(s, fs).store;
      |t.zones| == |fs| && FindInZone(t, covers, lat, lon) == Some(t.zones[Layout(fs)[k].0].id)
  {
    var t := ResetData(s, fs).store;
    var l := Layout(fs);
    ReloadRegions(s, fs);
    forall m | 0 <= m < |t.regions| && m != k ensures !covers(t.regions[m].geog, lon, lat) {
      assert t.regions[m].geog == l[m].1;
    }
    SoleCoverFound(t, covers, lat, lon, k);
  }

  /** A point covered by exactly one region resolves to that region's zone. */
  lemma {:induction false} SoleCoverFound<P>(s: Store<P>, covers: Covers<P>, lat: real, lon: real, k: nat)
    requires k < |s.regions| && covers(s.regions[k].geog, lon, lat)
    requires forall m :: 0 <= m < |s.regions| && m != k ==> !covers(s.regions[m].geog, lon, lat)
    ensures FindInZone(s, covers, lat, lon) == Some(s.regions[k].zoneId)
  {
    var m :| 0 <= m < |s.regions| && covers(s.regions[m].geog, lon, lat)
      && s.regions[m].zoneId == FindInZone(s, covers, lat, lon).value;
  }
}

=== FILE: roster.dfy ===
/** The officer roster a run builds: candidate persons enrolled one after the
    other under the exact-name identity rule, on id-free person lists. */
module Roster {
  import opened Tables

  /** Enrols the candidates `cs` in order, starting from `ps`. */
  function EnrolAll(ps: seq<Person>, cs: seq<Person>): seq<Person>
    decreases |cs|
  {
    if |cs| == 0 then ps else Enrol(EnrolAll(ps, cs[..|cs| - 1]), cs[|cs| - 1])
  }

  function NameSet(ps: seq<Person>): set<string> {
    set i | 0 <= i < |ps| :: ps[i].name
  }

  /** `p` is the first person in `cs` that carries its name. */
  ghost predicate FirstOfName(cs: seq<Person>, p: Person) {
    exists i :: 0 <= i < |cs| && cs[i] == p && forall k :: 0 <= k < i ==> cs[k].name != p.name
  }

  lemma {:induction false} ListedIsNameSet(ps: seq<Person>, name: string)
    ensures Listed(ps, name) <==> name in NameSet(ps)
  {
    if name in NameSet(ps) {
      var i :| 0 <= i < |ps| && ps[i].name == name;
    }
  }

  lemma {:induction false} NameSetAppend(ps: seq<Person>, p: Person)
    ensures NameSet(ps + [p]) == NameSet(ps) + {p.name}
  {
    var q := ps + [p];
    assert q[|ps|] == p;
    forall n | n in NameSet(ps) ensures n in NameSet(q) {
      var i :| 0 <= i < |ps| && ps[i].name == n;
      assert q[i] == ps[i];
    }
  }

  /** Enrolling never drops or rewrites a person already listed. */
  lemma {:induction false} EnrolAllExtends(ps: seq<Person>, cs: seq<Person>)
    ensures ps <= EnrolAll(ps, cs)
    decreases |cs|
  {
    if |cs| > 0 {
      EnrolAllExtends(ps, cs[..|cs| - 1]);
    }
  }

  /** The roster's names are exactly the starting names and the candidates' names. */
  lemma {:induction false} EnrolAllNames(ps: seq<Person>, cs: seq<Person>)
    ensures NameSet(EnrolAll(ps, cs)) == NameSet(ps) + NameSet(cs)
    decreases |cs|
  {
    if |cs| > 0 {
      var pre := cs[..|cs| - 1];
      var c := cs[|cs| - 1];
      var r := EnrolAll(ps, pre);
      EnrolAllNames(ps, pre);
      assert cs == pre + [c];
      NameSetAppend(pre, c);
      ListedIsNameSet(r, c.name);
      if !Listed(r, c.name) {
        NameSetAppend(r, c);
      }
    }
  }

  /** Enrolling keeps names unique. */
  lemma {:induction false} EnrolAllDistinct(ps: seq<Person>, cs: seq<Person>)
    requires DistinctNames(ps)
    ensures DistinctNames(EnrolAll(ps, cs))
    decreases |cs|
  {
    if |cs| > 0 {
      var r := EnrolAll(ps, cs[..|cs| - 1]);
      var c := cs[|cs| - 1];
      EnrolAllDistinct(ps, cs[..|cs| - 1]);
      if !Listed(r, c.name) {
        var q := r + [c];
        forall i, j | 0 <= i < j < |q| ensures q[i].name != q[j].name {
          if j == |r| {
            assert q[i] == r[i];
          }
        }
      }
    }
  }

  /** With unique names, there are as many persons as names. */
  lemma {:induction false} DistinctCount(ps: seq<Person>)
    requires DistinctNames(ps)
    ensures |NameSet(ps)| == |ps|
    decreases |ps|
  {
    if |ps| > 0 {
      var pre := ps[..|ps| - 1];
      var p := ps[|ps| - 1];
      assert ps == pre + [p];
      assert DistinctNames(pre);
      DistinctCount(pre);
      NameSetAppend(pre, p);
    }
  }

  /** Every person added to `ps` is the first candidate of its name, and that
      name was not listed before. */
  lemma {:induction false} EnrolAllFirst(ps: seq<Person>, cs: seq<Person>)
    ensures forall j :: |ps| <= j < |EnrolAll(ps, cs)| ==>
      !Listed(ps, EnrolAll(ps, cs)[j].name) && FirstOfName(cs, EnrolAll(ps, cs)[j])
    decreases |cs|
  {
    if |cs| > 0 {
      var pre := cs[..|cs| - 1];
      var c := cs[|cs| - 1];
      var r := EnrolAll(ps, pre);
      EnrolAllFirst(ps, pre);
      forall j | |ps| <= j < |r| ensures FirstOfName(cs, r[j]) {
        var i :| 0 <= i < |pre| && pre[i] == r[j] && forall k :: 0 <= k < i ==> pre[k].name != r[j].name;
        assert cs[i] == pre[i];
        assert forall k :: 0 <= k < i ==> cs[k] == pre[k];
      }
      if !Listed(r, c.name) {
        var q := r + [c];
        EnrolAllNames(ps, pre);
        ListedIsNameSet(r, c.name);
        ListedIsNameSet(ps, c.name);
        forall k | 0 <= k < |cs| - 1 ensures cs[k].name != c.name {
          assert cs[k] == pre[k];
          assert pre[k].name in NameSet(pre);
        }
        assert FirstOfName(cs, q[|r|]);
      }
    }
  }
}

=== FILE: tables.dfy ===
/** The four tables of the zone database: `zones`, `regions`, `officers` and
    `zone_assignments`. Each table is a sequence of immutable rows in
    insertion order, and each has its own serial counter that hands out the
    surrogate ids. A DELETE empties a table but does not rewind its counter. */
module Tables {
  import opened Common

  type Id = nat

  /** Width of every text column (`Unicode(length=200)`); a longer value is
      refused. */
  const TextWidth: nat := 200

  datatype Zone = Zone(id: Id, name: string)

  /** A Region carries one polygon, kept opaque as the type parameter `P`. */
  datatype Region<P> = Region(id: Id, geog: P, zoneId: Id)

  datatype Officer = Officer(id: Id, name: string, email: string, phone: string, title: string)

  datatype ZoneAssignment = ZoneAssignment(id: Id, zoneId: Id, officerId: Id)

  /** The next value of each table's serial column. */
  datatype Serials = Serials(zone: Id, region: Id, officer: Id, assignment: Id)

  datatype Store<P> = Store(
    zones: seq<Zone>,
    regions: seq<Region<P>>,
    officers: seq<Officer>,
    assignments: seq<ZoneAssignment>,
    next: Serials)

  /** The content of an officer row without its surrogate id. */
  datatype Person = Person(name: string, email: string, phone: string, title: string)

  function PersonOf(o: Officer): Person {
    Person(o.name, o.email, o.phone, o.title)
  }

  function Persons(officers: seq<Officer>): (ps: seq<Person>)
    ensures |ps| == |officers|
    ensures forall i :: 0 <= i < |officers| ==> ps[i] == PersonOf(officers[i])
  {
    seq(|officers|, i requires 0 <= i < |officers| => PersonOf(officers[i]))
  }

  /** Every column of the person fits the database's text width. */
  predicate Fits(p: Person) {
    |p.name| <= TextWidth && |p.email| <= TextWidth && |p.phone| <= TextWidth && |p.title| <= TextWidth
  }

  // ---------------------------------------------------------------------------
  // Name-keyed identity of officers, on id-free person lists

  predicate Listed(ps: seq<Person>, name: string) {
    exists i :: 0 <= i < |ps| && ps[i].name == name
  }

  /** The officer registry's policy: a person whose exact name is already
      listed is not added again. */
  function Enrol(ps: seq<Person>, p: Person): (r: seq<Person>)
    ensures Listed(r, p.name)
    ensures ps <= r
  {
    if Listed(ps, p.name) then ps
    else
      assert (ps + [p])[|ps|] == p;
      ps + [p]
  }

  predicate DistinctNames(ps: seq<Person>) {
    forall i, j :: 0 <= i < j < |ps| ==> ps[i].name != ps[j].name
  }

  // ---------------------------------------------------------------------------
  // Integrity of a store

  predicate ZoneKeys(zones: seq<Zone>, next: Id) {
    && (forall i, j :: 0 <= i < j < |zones| ==> zones[i].id < zones[j].id)
    && (forall i :: 0 <= i < |zones| ==> zones[i].id < next)
  }

  predicate RegionKeys<P>(regions: seq<Region<P>>, next: Id) {
    && (forall i, j :: 0 <= i < j < |regions| ==> regions[i].id < regions[j].id)
    && (forall i :: 0 <= i < |regions| ==> regions[i].id < next)
  }

  predicate OfficerKeys(officers: seq<Officer>, next: Id) {
    && (forall i, j :: 0 <= i < j < |officers| ==> officers[i].id < officers[j].id)
    && (forall i :: 0 <= i < |officers| ==> officers[i].id < next)
  }

  predicate AssignmentKeys(assignments: seq<ZoneAssignment>, next: Id) {
    && (forall i, j :: 0 <= i < j < |assignments| ==> assignments[i].id < assignments[j].id)
    && (forall i :: 0 <= i < |assignments| ==> assignments[i].id < next)
  }

  predicate HasZone<P>(s: Store<P>, id: Id) {
    exists i :: 0 <= i < |s.zones| && s.zones[i].id == id
  }

  predicate HasOfficer<P>(s: Store<P>, id: Id) {
    exists i :: 0 <= i < |s.officers| && s.officers[i].id == id
  }

  /** The officer row with surrogate id `id` is called `name`. */
  predicate OfficerNamed<P>(s: Store<P>, id: Id, name: string) {
    exists i :: 0 <= i < |s.officers| && s.officers[i].id == id && s.officers[i].name == name
  }

  /** Every foreign key names a row that is present. */
  predicate References<P>(s: Store<P>) {
    && (forall i :: 0 <= i < |s.regions| ==> HasZone(s, s.regions[i].zoneId))
    && (forall i :: 0 <= i < |s.assignments| ==>
          HasZone(s, s.assignments[i].zoneId) && HasOfficer(s, s.assignments[i].officerId))
  }

  /** Primary keys are unique and below their serial counters, officer names
      are unique, and referential integrity holds. */
  predicate Valid<P>(s: Store<P>) {
    && ZoneKeys(s.zones, s.next.zone)
    && RegionKeys(s.regions, s.next.region)
    && OfficerKeys(s.officers, s.next.officer)
    && AssignmentKeys(s.assignments, s.next.assignment)
    && DistinctNames(Persons(s.officers))
    && References(s)
  }

  /** `t` holds every row of `s` at the same position, plus rows appended after them. */
  ghost predicate Extends<P>(s: Store<P>, t: Store<P>) {
    s.zones <= t.zones && s.regions <= t.regions && s.officers <= t.officers && s.assignments <= t.assignments
  }

  /** Rows only ever being appended, a key present in `s` stays present in `t`. */
  lemma {:induction false} ExtendsKeepsKeys<P>(s: Store<P>, t: Store<P>)
    requires s.zones <= t.zones && s.officers <= t.officers
    ensures forall id :: HasZone(s, id) ==> HasZone(t, id)
    ensures forall id :: HasOfficer(s, id) ==> HasOfficer(t, id)
    ensures forall id, name :: OfficerNamed(s, id, name) ==> OfficerNamed(t, id, name)
  {
    forall id | HasZone(s, id) ensures HasZone(t, id) {
      var i :| 0 <= i < |s.zones| && s.zones[i].id == id;
      assert t.zones[i] == s.zones[i];
    }
    forall id | HasOfficer(s, id) ensures HasOfficer(t, id) {
      var i :| 0 <= i < |s.officers| && s.officers[i].id == id;
      assert t.officers[i] == s.officers[i];
    }
    forall id, name | OfficerNamed(s, id, name) ensures OfficerNamed(t, id, name) {
      var i :| 0 <= i < |s.officers| && s.officers[i].id == id && s.officers[i].name == name;
      assert t.officers[i] == s.officers[i];
    }
  }

  /** In a valid store a region's `zone_id` names exactly one zone. */
  lemma {:induction false} RegionZoneResolves<P>(s: Store<P>, k: nat)
    requires Valid(s) && k < |s.regions|
    ensures exists i :: 0 <= i < |s.zones| && s.zones[i].id == s.regions[k].zoneId
    ensures forall i, j :: (0 <= i < |s.zones| && 0 <= j < |s.zones| && s.zones[i].id == s.regions[k].zoneId
                            && s.zones[j].id == s.regions[k].zoneId) ==> i == j
  {
    assert HasZone(s, s.regions[k].zoneId);
  }

  /** In a valid store an assignment's `zone_id` names exactly one zone and its
      `officer_id` exactly one officer. */
  lemma {:induction false} AssignmentKeysResolve<P>(s: Store<P>, k: nat)
    requires Valid(s) && k < |s.assignments|
    ensures exists i :: 0 <= i < |s.zones| && s.zones[i].id == s.assignments[k].zoneId
    ensures exists i :: 0 <= i < |s.officers| && s.officers[i].id == s.assignments[k].officerId
    ensures forall i, j :: (0 <= i < |s.zones| && 0 <= j < |s.zones| && s.zones[i].id == s.assignments[k].zoneId
                            && s.zones[j].id == s.assignments[k].zoneId) ==> i == j
    ensures forall i, j :: (0 <= i < |s.officers| && 0 <= j < |s.officers| && s.officers[i].id == s.assignments[k].officerId
                            && s.officers[j].id == s.assignments[k].officerId) ==> i == j
  {
    assert HasZone(s, s.assignments[k].zoneId) && HasOfficer(s, s.assignments[k].officerId);
  }

  // ---------------------------------------------------------------------------
  // Deletion, in dependency order

  function DeleteAssignments<P>(s: Store<P>): (r: Store<P>)
    ensures |r.assignments| == 0
    ensures r.zones == s.zones && r.regions == s.regions && r.officers == s.officers && r.next == s.next
    ensures Valid(s) ==> Valid(r)
  {
    s.(assignments := [])
  }

  /** Only safe once no assignment refers to an officer. */
  function DeleteOfficers<P>(s: Store<P>): (r: Store<P>)
    ensures |r.officers| == 0
    ensures r.zones == s.zones && r.regions == s.regions && r.assignments == s.assignments && r.next == s.next
    ensures Valid(s) && |s.assignments| == 0 ==> Valid(r)
  {
    s.(officers := [])
  }

  function DeleteRegions<P>(s: Store<P>): (r: Store<P>)
    ensures |r.regions| == 0
    ensures r.zones == s.zones && r.officers == s.officers && r.assignments == s.assignments && r.next == s.next
    ensures Valid(s) ==> Valid(r)
  {
    s.(regions := [])
  }

  /** Only safe once no region or assignment refers to a zone. */
  function DeleteZones<P>(s: Store<P>): (r: Store<P>)
    ensures |r.zones| == 0
    ensures r.regions == s.regions && r.officers == s.officers && r.assignments == s.assignments && r.next == s.next
    ensures Valid(s) && |s.regions| == 0 && |s.assignments| == 0 ==> Valid(r)
  {
    s.(zones := [])
  }

  /** The four deletes of a reset, assignments first and zones last. */
  function Clear<P>(s: Store<P>): (r: Store<P>)
    ensures |r.zones| == 0 && |r.regions| == 0 && |r.officers| == 0 && |r.assignments| == 0
    ensures Valid(r)
    ensures r.next == s.next
  {
    DeleteZones(DeleteRegions(DeleteOfficers(DeleteAssignments(s))))
  }

  // ---------------------------------------------------------------------------
  // Insertion

  /** Adds a zone under the next zone id; a name wider than the column is refused. */
  function InsertZone<P>(s: Store<P>, name: string): (r: Option<(Store<P>, Id)>)
    ensures r.None? <==> |name| > TextWidth
    ensures r.Some? ==>
      && r.value.0.zones == s.zones + [Zone(r.value.1, name)]
      && r.value.0.regions == s.regions
      && r.value.0.officers == s.officers
      && r.value.0.assignments == s.assignments
      && r.value.0.next == s.next.(zone := r.value.1 + 1)
    ensures r.Some? && Valid(s) ==>
      !HasZone(s, r.value.1) && HasZone(r.value.0, r.value.1) && Valid(r.value.0)
  {
    if |name| > TextWidth then None
    else
      var id := s.next.zone;
      var t := s.(zones := s.zones + [Zone(id, name)], next := s.next.(zone := id + 1));
      assert t.zones[|s.zones|].id == id;
      ExtendsKeepsKeys(s, t);
      Some((t, id))
  }

  /** Adds an officer row for `p` under the next officer id; a value wider
      than its column is refused. */
  function InsertOfficer<P>(s: Store<P>, p: Person): (r: Option<(Store<P>, Id)>)
    ensures r.None? <==> !Fits(p)
    ensures r.Some? ==>
      && r.value.0.officers == s.officers + [Officer(r.value.1, p.name, p.email, p.phone, p.title)]
      && r.value.0.zones == s.zones
      && r.value.0.regions == s.regions
      && r.value.0.assignments == s.assignments
      && r.value.0.next == s.next.(officer := r.value.1 + 1)
    ensures r.Some? && Valid(s) ==> !HasOfficer(s, r.value.1)
  {
    if !Fits(p) then None
    else
      var id := s.next.officer;
      Some((s.(officers := s.officers + [Officer(id, p.name, p.email, p.phone, p.title)],
               next := s.next.(officer := id + 1)), id))
  }

  /** Officer identity by exact name: the first officer called `p.name` is
      reused with its stored columns unchanged; otherwise `p` is inserted. */
  function ResolveOfficer<P>(s: Store<P>, p: Person): (r: Option<(Store<P>, Id)>)
    ensures Listed(Persons(s.officers), p.name) ==> r.Some? && r.value.0 == s
    ensures !Listed(Persons(s.officers), p.name) ==> (r.None? <==> !Fits(p))
    ensures r.Some? ==>
      && Persons(r.value.0.officers) == Enrol(Persons(s.officers), p)
      && OfficerNamed(r.value.0, r.value.1, p.name)
      && Extends(s, r.value.0)
      && r.value.0.zones == s.zones
      && r.value.0.regions == s.regions
      && r.value.0.assignments == s.assignments
    ensures r.Some? && Valid(s) ==> Valid(r.value.0)
  {
    match First(s.officers, (o: Officer) => o.name == p.name)
    case Some(i) =>
      assert Persons(s.officers)[i].name == p.name;
      Some((s, s.officers[i].id))
    case None =>
      assert !Listed(Persons(s.officers), p.name);
      match InsertOfficer(s, p)
      case None => None
      case Some((t, id)) =>
        assert Persons(t.officers) == Persons(s.officers) + [p];
        assert t.officers[|s.officers|].id == id;
        Some((t, id))
  }

  /** Adds an assignment of officer `officerId` to zone `zoneId` under the next assignment id. */
  function InsertAssignment<P>(s: Store<P>, zoneId: Id, officerId: Id): (r: (Store<P>, Id))
    ensures r.0.assignments == s.assignments + [ZoneAssignment(r.1, zoneId, officerId)]
    ensures r.0.zones == s.zones && r.0.regions == s.regions && r.0.officers == s.officers
    ensures r.0.next == s.next.(assignment := r.1 + 1)
    ensures Valid(s) && HasZone(s, zoneId) && HasOfficer(s, officerId) ==> Valid(r.0)
  {
    var id := s.next.assignment;
    (s.(assignments := s.assignments + [ZoneAssignment(id, zoneId, officerId)],
        next := s.next.(assignment := id + 1)), id)
  }

  /** Adds one region owned by `zoneId` under the next region id. */
  function InsertRegion<P>(s: Store<P>, geog: P, zoneId: Id): (r: Store<P>)
    ensures r.regions == s.regions + [Region(s.next.region, geog, zoneId)]
    ensures r.zones == s.zones && r.officers == s.officers && r.assignments == s.assignments
    ensures r.next == s.next.(region := s.next.region + 1)
    ensures Valid(s) && HasZone(s, zoneId) ==> Valid(r)
  {
    s.(regions := s.regions + [Region(s.next.region, geog, zoneId)],
       next := s.next.(region := s.next.region + 1))
  }

  /** From position `at` on, `regions` holds one region per polygon of
      `geogs`, in order, each owned by zone `zoneId`. */
  ghost predicate RegionsAt<P>(regions: seq<Region<P>>, at: nat, geogs: seq<P>, zoneId: Id) {
    && at + |geogs| <= |regions|
    && forall k :: 0 <= k < |geogs| ==> regions[at + k].geog == geogs[k] && regions[at + k].zoneId == zoneId
  }

  /** Adds one region per polygon, in the order given, all owned by `zoneId`. */
  function InsertRegions<P>(s: Store<P>, geogs: seq<P>, zoneId: Id): (r: Store<P>)
    ensures |r.regions| == |s.regions| + |geogs|
    ensures s.regions <= r.regions
    ensures RegionsAt(r.regions, |s.regions|, geogs, zoneId)
    ensures r.zones == s.zones && r.officers == s.officers && r.assignments == s.assignments
    ensures r.next.zone == s.next.zone && r.next.officer == s.next.officer && r.next.assignment == s.next.assignment
    ensures Valid(s) && HasZone(s, zoneId) ==> Valid(r)
    decreases |geogs|
  {
    if |geogs| == 0 then s
    else
      var t := InsertRegion(s, geogs[0], zoneId);
      assert HasZone(s, zoneId) ==> HasZone(t, zoneId);
      var r := InsertRegions(t, geogs[1..], zoneId);
      RegionsAtCons(s.regions, t.regions, r.regions, geogs, zoneId);
      r
  }

  /** The first polygon placed at `|a|`, the rest after it, is all of them
      placed at `|a|`. */
  lemma {:induction false} RegionsAtCons<P>(a: seq<Region<P>>, b: seq<Region<P>>, c: seq<Region<P>>, geogs: seq<P>, zoneId: Id)
    requires |geogs| > 0 && |b| == |a| + 1 && b <= c
    requires b[|a|].geog == geogs[0] && b[|a|].zoneId == zoneId
    requires RegionsAt(c, |b|, geogs[1..], zoneId)
    ensures RegionsAt(c, |a|, geogs, zoneId)
  {
    forall k | 0 <= k < |geogs| ensures c[|a| + k].geog == geogs[k] && c[|a| + k].zoneId == zoneId {
      if k == 0 {
        assert c[|a|] == b[|a|];
      } else {
        assert geogs[1..][k - 1] == geogs[k];
        assert c[|b| + (k - 1)] == c[|a| + k];
      }
    }
  }

  /** Appending rows is transitive. */
  lemma {:induction false} ExtendsTrans<P>(s: Store<P>, t: Store<P>, u: Store<P>)
    requires Extends(s, t) && Extends(t, u)
    ensures Extends(s, u)
  {
    PrefixTrans(s.zones, t.zones, u.zones);
    PrefixTrans(s.regions, t.regions, u.regions);
    PrefixTrans(s.officers, t.officers, u.officers);
    PrefixTrans(s.assignments, t.assignments, u.assignments);
  }

  lemma {:induction false} PrefixTrans<T>(a: seq<T>, b: seq<T>, c: seq<T>)
    requires a <= b && b <= c
    ensures a <= c
  {
    assert forall i :: 0 <= i < |a| ==> a[i] == b[i] == c[i];
  }
}
